=== FILE: README.md ===
# URL shortener registry — a Dafny model

This project models the core of a small URL-shortening web service. The
service keeps two in-memory stores keyed by shortcode:

- `urls_db`: shortcode → record (original URL, creation time, expiry);
- `clicks_db`: shortcode → ordered list of clicks (timestamp, referrer, client host).

Three HTTP handlers act on them:

- **create** (`POST /shorturls`) uses the supplied shortcode. If none is supplied, or it is empty, it draws a random 6-character code over the 62 ASCII letters and digits until it finds one that is not a key. It refuses a code that is already registered (400). Otherwise it stores the record with `expiry = now + validity minutes` and an empty click list (201).
- **stats** (`GET /shorturls/{code}`) reports the record and its clicks, expired or not (200). An unknown code gets 404.
- **redirect** (`GET /{code}`) answers 404 for an unknown code, and 410 once the clock is strictly past the expiry. Otherwise it appends one click and redirects to the stored URL (307).

The model is functional. `Registry` is an immutable datatype holding the two
maps, and each handler is a pure function from a registry and a request to
an `Outcome` (the new registry and the response). Time is an integer count
of microseconds, the resolution of Python's `datetime`. Each clock reading
the source takes is a separate parameter, so nothing assumes that two
readings agree. The randomness of `random.choices` is a parameter too:
`draws(a, j)` is the alphabet index picked at position `j` of attempt `a`.

Modules:

- `Wrappers` (`wrappers.dfy`): `Option`.
- `Shortcode` (`shortcode.dfy`): the alphabet and the generator.
- `Shortener` (`shortener.dfy`): the stores, the three handlers, the invariant `Valid`.
- `Traces` (`traces.dfy`): requests served one after another. It holds the properties that relate several calls, and the one-minute scenario.

Facts about the code the model keeps:

- Any integer validity is accepted, zero and negative included; there is no
  validity error. A negative validity stores a link that is already expired.
  A zero validity stores one that expires at the clock reading the expiry is
  computed from.
- The expiry is computed from one clock reading (app.py:51). The stored
  creation time is a second reading (app.py:54). So `expiry == createdAt +
  validity` is not promised, and the model states expiry relative to the first
  reading only.
- The generator's retry loop has no cap.

## Model

| member | source | states |
|---|---|---|
| `Shortcode.AlphabetIsAsciiAlnum` | app.py:25 | The alphabet `ascii_letters + digits` has exactly 62 pairwise distinct symbols. All of them are ASCII letters or digits, and every ASCII letter or digit is among them. |
| `Shortcode.Candidate` | app.py:27 | One draw of `random.choices(chars, k=length)` yields a code of exactly `length` characters, each an ASCII letter or digit. |
| `Shortcode.EveryCodeCanBeDrawn` | app.py:25-27 | A candidate is built from the draws alone. Every code of ASCII letters and digits is what some random source yields, at any attempt, so no code is out of the generator's reach. |
| `Shortcode.GenerateFrom` | app.py:26-29 | The retry loop from a given attempt returns the first candidate not in the key set. That result has the requested length and alphabet and is not taken. It is absent exactly when every attempt in range collided. |
| `Shortcode.GenerateShortcode` | app.py:24-29 | `generate_shortcode(length)` never returns a registered key. Its result has exactly `length` letters or digits and is the first non-colliding draw. It finds none exactly when all attempts collide. |
| `Shortcode.ExhaustedSpaceNeverYields` | app.py:26-29 | If every code of the requested length is already a key, no number of attempts finds one, so the source loop never ends. |
| `Shortcode.DistinctDrawsFindFreeCode` | app.py:26-29 | If the draws never repeat a code, one attempt more than there are keys always finds a free code. |
| `Shortener.StatusCode` | app.py:42-106 | Every answer maps to a status between 200 and 599. It is at least 400 exactly for a failure, and at least 500 exactly for the internal failure: `int(None)` on the validity (app.py:60) or the uncaught `KeyError` of `clicks_db[shortcode]` (app.py:99). |
| `Shortener.HandlerStatuses` | app.py:42-106 | Each handler answers with the source's numbers. Create gives 400 for a registered code (app.py:48), 500 for a free code with a validity that is not a number (app.py:60), and otherwise 201 for a free code (app.py:42). Stats gives 404 for an unknown code (app.py:72) and otherwise 200. Redirect gives 404 for an unknown code (app.py:90), 410 strictly past the expiry (app.py:95), 500 for a live code with no click list, and 307 otherwise (the `RedirectResponse` default, app.py:106). |
| `Shortener.EmptyIsValid` | app.py:13-14 | The empty stores at start-up satisfy the invariant: equal key sets, and no empty key. |
| `Shortener.ResolveCode` | app.py:44 | `data.shortcode or generate_shortcode()` keeps a supplied non-empty code. A missing or empty one is replaced by `generate_shortcode()`'s answer: the first draw whose code is not a key, a 6-character alphanumeric code. No code is found exactly when no code or an empty one was supplied and every draw collides. The chosen code is never empty. |
| `Shortener.Shorten` | app.py:42-66 | Create leaves both stores unchanged on every failure. It is 400 exactly when the resolved code is already a key, and 500 exactly when the code is free but the validity is `None`. It is 201 exactly when the code is free and the validity is any integer, zero and negative included. On success, the link is the base URL plus the code, and the code is non-empty and new. `expiry = now + validity·60 s` holds for any integer validity. Exactly one key is added to each map, the new record holds the URL, the separate `created_at` reading (app.py:54) and the expiry, the click list is empty, and every existing entry is untouched. |
| `Shortener.ShortenTakenCodeRejected` | app.py:44-48 | Supplying a non-empty code that is already registered yields exactly (unchanged registry, 400), whatever the validity or clock. |
| `Shortener.ShortenPreservesValid` | app.py:50-57 | Create inserts into both maps or into neither, so the key sets stay equal and the empty string never becomes a key. |
| `Shortener.Stats` | app.py:68-84 | Stats is 404 exactly when the code is not in `urls_db`. Otherwise it reports the stored URL, creation time and expiry, with no clock involved (expired or not). `total_clicks` is the length of the reported list, which is the code's click list or `[]` when `clicks_db` lacks the key. |
| `Shortener.StatsCountsClicks` | app.py:74-82 | In a valid registry, the reported clicks are exactly the code's stored list, and `total_clicks` is its length. |
| `Shortener.Redirect` | app.py:86-106 | Redirect leaves both stores unchanged on every failure. It is 404 exactly when the code is absent, and 410 exactly when `now > expiry` (strict). It is 500 exactly when a live code has no click list, since `clicks_db[shortcode]` raises. On success it returns the stored URL, leaves `urls_db` and every other click list unchanged, and appends exactly one click (stamp, referrer, host) at the end of the code's list. |
| `Shortener.RedirectNeverFailsWhenValid` | app.py:92-100 | In a valid registry, a registered code either redirects or is gone. The `clicks_db[code]` lookup never fails. |
| `Shortener.RedirectPreservesValid` | app.py:99-104 | Redirect only appends to an existing list, so the key sets stay equal. |
| `Shortener.OmittedValidityLastsThirtyMinutes` | app.py:34-57 | A request without a validity gets the default of 30 minutes: with a free code it is created, with expiry 30·60 s after the clock reading the expiry is computed from (app.py:51). |
| `Shortener.NegativeValidityIsBornExpired` | app.py:51-95 | With a free code, a negative validity is accepted and the record is created and stored. Every redirect at or after the clock reading the expiry was computed from (app.py:51) is then 410. |
| `Shortener.ZeroValidityExpiresAtCreation` | app.py:51-95 | With a free code, validity 0 is accepted and the record is created. A redirect at the clock reading the expiry was computed from (app.py:51) still succeeds. One microsecond later it is 410. |
| `Traces.Step` | app.py:42-106 | Stats never changes the registry. No handler changes or removes a stored record. A created link names a code that was not a key before and is one after. |
| `Traces.RunPreservesValid` | app.py:52-104 | Over any sequence of requests, `urls_db` and `clicks_db` keep the same key set, and the empty string is never a key. |
| `Traces.RunKeepsRecords` | app.py:52-56 | Over any sequence of requests, every stored record stays present and unchanged. There is no update or delete path. |
| `Traces.RunExtendsClicks` | app.py:99-104 | From a valid registry, every click list before a run is a prefix of the same list after it (append-only). |
| `Traces.ClicksCountRedirects` | app.py:99-104 | From a valid registry, a code's click count after a run is its count before plus the number of successful redirects of that code in the run. |
| `Traces.StatsReportsRedirects` | app.py:75-82 | From start-up, the stats of a registered code report `total_clicks` equal to the number of successful redirects of it. |
| `Traces.RunKeepsOrder` | app.py:100-101 | If the redirect stamps come from a clock that never goes back, every click list stays in chronological order. |
| `Traces.CreatedCodesAreDistinct` | app.py:44-57 | In any sequence of requests, each successful create hands out a code new to the starting registry and still stored at the end. No two successful creates hand out the same code. |
| `Traces.OneMinuteLink` | app.py:42-106 | Create a one-minute link, redirect at once, redirect 1 µs after the minute, then ask for stats. The answers are 201 with expiry `t0 + 60 s`, then 307 to the URL, then 410, then 200 with `total_clicks = 1`. |

## Left out

- Logging: `Log` (logger_util.py) writes a local log file and POSTs to a remote endpoint. It never touches the stores, so every call is a no-op here. The HTTP middleware (app.py:17-21, logging_middleware.py) only times and logs requests.
- Framework plumbing: FastAPI routing, pydantic validation of the body, `HttpUrl` checking and JSON shaping are not modelled. A malformed body is answered 422 before the handler runs. URLs, referrers and hosts are opaque strings. Timestamps stay integers rather than `isoformat()` text; this includes the click timestamp, which the source stores as text.
- Randomness: `random.choices` is the `draws` parameter. Uniformity of the draws is not modelled.
- `Shortcode.GenerateShortcode`: the source loop is unbounded. The model looks at the first `tries` attempts, and `None` (and the create handler's `Drawing` response) stands for "still drawing", with nothing stored. In the source that loop also blocks the server's event loop, which is not modelled.
- Concurrency: not modelled, and nothing is lost by it. The handlers are `async def` functions with no `await` inside them, so on the single event loop each one runs to completion before another starts. The model's atomic sequential transitions match this, so the check at app.py:46 and the insert at app.py:52 cannot interleave with another request.
- `Shortener.Shorten`: the only 500 modelled is a `None` validity (`int(None)`). Datetime overflow for huge validities is not modelled, since integers are unbounded. Nor are other exceptions raised inside the `try`.
- `Shortener.Redirect`: a request with no client information (`request.client` is `None`) would fail with 500 before anything is appended. The model takes the client host as a given string.
- Clock: nothing is assumed about how the separate readings relate, except in `Traces.RunKeepsOrder`. There, the redirect stamps are assumed never to go back, because the source's wall clock does not promise that.

=== FILE: shortcode.dfy ===
/** The shortcode generator: random fixed-length codes over the 62 ASCII
    letters and digits, redrawn until one is not already a registered key.

    The randomness of `random.choices` is a parameter: `draws(a, j)` is the
    index, into the alphabet, of the symbol picked at position `j` of the
    `a`-th attempt. The source's loop has no bound; the model looks at the
    first `tries` attempts and answers `None` when all of them collide, which
    stands for "the source is still drawing". */
module Shortcode {
  import opened Wrappers

  /** `string.ascii_lowercase`, `string.ascii_uppercase` and `string.digits`. */
  const Lowercase: string := seq(26, i requires 0 <= i < 26 => (97 + i) as char)
  const Uppercase: string := seq(26, i requires 0 <= i < 26 => (65 + i) as char)
  const Digits: string := seq(10, i requires 0 <= i < 10 => (48 + i) as char)

  /** `string.ascii_letters + string.digits`, in that order. */
  const Alphabet: string := Lowercase + Uppercase + Digits

  /** An index into `Alphabet`: what one pick of `random.choices` selects. */
  type Symbol = k: int | 0 <= k < 62

  /** The random source: the symbol drawn at (attempt, position). */
  type Draws = (nat, nat) -> Symbol

  predicate IsAsciiAlnum(c: char) {
    ('a' <= c <= 'z') || ('A' <= c <= 'Z') || ('0' <= c <= '9')
  }

  predicate AllAsciiAlnum(s: string) {
    forall i :: 0 <= i < |s| ==> IsAsciiAlnum(s[i])
  }

  /** The alphabet has 62 pairwise distinct symbols, all ASCII letters or
      digits, and every ASCII letter or digit is one of them. */
  lemma AlphabetIsAsciiAlnum()
    ensures |Alphabet| == 62
    ensures forall i :: 0 <= i < |Alphabet| ==> IsAsciiAlnum(Alphabet[i])
    ensures forall i, j :: 0 <= i < j < |Alphabet| ==> Alphabet[i] != Alphabet[j]
    ensures forall c :: IsAsciiAlnum(c) ==> c in Alphabet
  {
    forall c | IsAsciiAlnum(c)
      ensures c in Alphabet
    {
      if 'a' <= c <= 'z' {
        assert Alphabet[c as int - 97] == c;
      } else if 'A' <= c <= 'Z' {
        assert Alphabet[26 + c as int - 65] == c;
      } else {
        assert Alphabet[52 + c as int - 48] == c;
      }
    }
  }

  /** The code built from the `attempt`-th draw: `length` picks from the
      alphabet. */
  function Candidate(draws: Draws, attempt: nat, length: nat): (code: string)
    ensures |code| == length
    ensures AllAsciiAlnum(code)
  {
    seq(length, j requires 0 <= j < length => Alphabet[draws(attempt, j)])
  }

  /** The position in `Alphabet` of an ASCII letter or digit. */
  function IndexOfSymbol(c: char): (k: int)
    requires IsAsciiAlnum(c)
    ensures 0 <= k < 62
  {
    if 'a' <= c <= 'z' then c as int - 97
    else if 'A' <= c <= 'Z' then 26 + c as int - 65
    else 52 + c as int - 48
  }

  /** A random source that picks the symbols of `s`, at every attempt. */
  function DrawsFor(s: string): Draws
    requires AllAsciiAlnum(s)
  {
    (a: nat, j: nat) => if j < |s| then IndexOfSymbol(s[j]) else 0
  }

  /** The candidate is built from the draws and nothing else: every code of
      ASCII letters and digits is what some random source yields, at any
      attempt. */
  lemma EveryCodeCanBeDrawn(s: string, attempt: nat)
    requires AllAsciiAlnum(s)
    ensures Candidate(DrawsFor(s), attempt, |s|) == s
  {
    var code := Candidate(DrawsFor(s), attempt, |s|);
    forall j | 0 <= j < |s|
      ensures code[j] == s[j]
    {
      var c := s[j];
      assert IsAsciiAlnum(c);
      if 'a' <= c <= 'z' {
        assert Alphabet[c as int - 97] == c;
      } else if 'A' <= c <= 'Z' {
        assert Alphabet[26 + c as int - 65] == c;
      } else {
        assert Alphabet[52 + c as int - 48] == c;
      }
    }
  }

  /** Attempt `a` is the first at or after `from` whose code is not taken. */
  predicate FirstFreeAttempt(taken: set<string>, length: nat, draws: Draws, from: nat, a: nat) {
    && Candidate(draws, a, length) !in taken
    && forall b :: from <= b < a ==> Candidate(draws, b, length) in taken
  }

  /** The loop of `generate_shortcode`, from attempt `attempt` up to (not
      including) attempt `tries`: the first candidate that is not taken. */
  function GenerateFrom(taken: set<string>, length: nat, draws: Draws, attempt: nat, tries: nat): (r: Option<string>)
    decreases tries - attempt
    ensures r.Some? ==> r.value !in taken && |r.value| == length && AllAsciiAlnum(r.value)
    ensures r.Some? ==>
      exists a :: attempt <= a < tries && r.value == Candidate(draws, a, length)
                  && FirstFreeAttempt(taken, length, draws, attempt, a)
    ensures r.None? <==> forall a :: attempt <= a < tries ==> Candidate(draws, a, length) in taken
  {
    if tries <= attempt then None
    else
      var code := Candidate(draws, attempt, length);
      if code !in taken then
        assert FirstFreeAttempt(taken, length, draws, attempt, attempt);
        Some(code)
      else
        var r := GenerateFrom(taken, length, draws, attempt + 1, tries);
        if r.Some? then
          var a :| attempt + 1 <= a < tries && r.value == Candidate(draws, a, length)
                   && FirstFreeAttempt(taken, length, draws, attempt + 1, a);
          assert FirstFreeAttempt(taken, length, draws, attempt, a);
          r
        else
          r
  }

  /** `generate_shortcode(length)` against the key set `taken`: a fresh code
      of exactly `length` letters and digits, namely the first candidate
      drawn that does not collide; `None` exactly when every one of the
      `tries` attempts collided. */
  function GenerateShortcode(taken: set<string>, length: nat, draws: Draws, tries: nat): (r: Option<string>)
    ensures r.Some? ==> r.value !in taken && |r.value| == length && AllAsciiAlnum(r.value)
    ensures r.Some? ==>
      exists a :: 0 <= a < tries && r.value == Candidate(draws, a, length)
                  && FirstFreeAttempt(taken, length, draws, 0, a)
    ensures r.None? <==> forall a :: 0 <= a < tries ==> Candidate(draws, a, length) in taken
  {
    GenerateFrom(taken, length, draws, 0, tries)
  }

  /** When every code of the requested length is taken, no number of
      attempts finds a free one: the source's loop never ends. */
  lemma ExhaustedSpaceNeverYields(taken: set<string>, length: nat, draws: Draws, tries: nat)
    requires forall s: string :: |s| == length && AllAsciiAlnum(s) ==> s in taken
    ensures GenerateShortcode(taken, length, draws, tries) == None
  {
  }

  /** The values `f` takes on `0 .. n-1`. */
  function ImageUpTo<T>(f: nat -> T, n: nat): set<T> {
    set a | 0 <= a < n :: f(a)
  }

  /** A function that is injective on `0 .. n-1` takes `n` distinct values there. */
  lemma {:induction false} InjectiveImageCount<T>(f: nat -> T, n: nat)
    requires forall a, b :: 0 <= a < b < n ==> f(a) != f(b)
    ensures |ImageUpTo(f, n)| == n
  {
    if n > 0 {
      InjectiveImageCount(f, n - 1);
      var prev := ImageUpTo(f, n - 1);
      assert ImageUpTo(f, n) == prev + {f(n - 1)};
      assert f(n - 1) !in prev;
    }
  }

  /** If the random source never repeats a code, one attempt more than
      there are registered codes is always enough. */
  lemma DistinctDrawsFindFreeCode(taken: set<string>, length: nat, draws: Draws, tries: nat)
    requires |taken| < tries
    requires forall a, b :: 0 <= a < b < tries ==> Candidate(draws, a, length) != Candidate(draws, b, length)
    ensures GenerateShortcode(taken, length, draws, tries).Some?
  {
    if GenerateShortcode(taken, length, draws, tries).None? {
      var f: nat -> string := (a: nat) => Candidate(draws, a, length);
      InjectiveImageCount(f, tries);
      assert ImageUpTo(f, tries) <= taken;
      SubsetCardinality(ImageUpTo(f, tries), taken);
      assert false;
    }
  }

  lemma {:induction false} SubsetCardinality<T>(a: set<T>, b: set<T>)
    requires a <= b
    ensures |a| <= |b|
  {
    if a != {} {
      var x :| x in a;
      SubsetCardinality(a - {x}, b - {x});
    }
  }
}

=== FILE: shortener.dfy ===
/** The shortcode registry of the service: two in-memory stores keyed by
    shortcode, one holding each URL record and one holding each code's
    click history, and the three request handlers that act on them
    (create, stats, redirect), each a pure transition on an immutable
    `Registry` value.

    Time is an integer count of microseconds, the resolution of Python's
    `datetime`; every reading of the clock the source takes is a parameter
    of its own. Logging calls have no effect on the stores and are left
    out. */
module Shortener {
  import opened Wrappers
  import opened Shortcode

  type Time = int

  /** `timedelta(minutes=1)` in microseconds. */
  const MicrosPerMinute: int := 60 * 1000 * 1000

  /** The length `generate_shortcode` is called with by the create handler. */
  const DefaultCodeLength: nat := 6

  /** The validity, in minutes, of a request that does not mention one. */
  const DefaultValidity: int := 30

  /** The prefix of every short link the create handler answers with. */
  const BaseUrl: string := "http://localhost:8000/"

  /** The code a short link ends in. */
  function LinkCode(link: string): string {
    if |BaseUrl| <= |link| then link[|BaseUrl|..] else ""
  }

  /** An entry of `urls_db`. */
  datatype UrlRecord = UrlRecord(originalUrl: string, createdAt: Time, expiry: Time)

  /** An entry of a click list: when, the `referer` header if any, and the
      client host. */
  datatype Click = Click(timestamp: Time, referrer: Option<string>, geo: string)

  /** `urls_db` and `clicks_db`. */
  datatype Registry = Registry(urls: map<string, UrlRecord>, clicks: map<string, seq<Click>>)

  /** The body of a create request. A request that leaves `validity` out
      gets `Some(DefaultValidity)`; an explicit `null` is `None`. */
  datatype ShortenRequest = ShortenRequest(url: string, validity: Option<int>, shortcode: Option<string>)

  /** The HTTP failures the handlers raise: 400, 404, 410 and 500. */
  datatype Failure = BadRequest | NotFound | Gone | InternalError

  /** What a handler answers. `Drawing` is the create handler that has not
      answered because the generator has not yet drawn a free code. */
  datatype Response =
    | Created(shortLink: string, expiry: Time)
    | Report(originalUrl: string, createdAt: Time, expiry: Time, totalClicks: nat, clicks: seq<Click>)
    | RedirectTo(location: string)
    | Error(failure: Failure)
    | Drawing

  /** The state after a handler ran, and its answer. */
  datatype Outcome = Outcome(registry: Registry, response: Response)

  /** The HTTP status of an answer: a success code for an answer that
      carries a result, a client error for a refused request, and 500 only
      for the internal failure. */
  function StatusCode(r: Response): (status: int)
    requires !r.Drawing?
    ensures 200 <= status < 600
    ensures status >= 400 <==> r.Error?
    ensures status >= 500 <==> r == Error(InternalError)
  {
    match r
    case Created(_, _) => 201
    case Report(_, _, _, _, _) => 200
    case RedirectTo(_) => 307
    case Error(BadRequest) => 400
    case Error(NotFound) => 404
    case Error(Gone) => 410
    case Error(InternalError) => 500
  }

  /** The stores at start-up. */
  const Empty: Registry := Registry(map[], map[])

  /** Both stores have the same keys, and the empty string is never one. */
  predicate Valid(reg: Registry) {
    && reg.urls.Keys == reg.clicks.Keys
    && "" !in reg.urls
  }

  lemma EmptyIsValid()
    ensures Valid(Empty)
  {
  }

  // ------------------------------------------------------------------
  // create_short_url
  // ------------------------------------------------------------------

  /** `data.shortcode or generate_shortcode()`: a supplied code is used
      unless it is missing or empty, in which case a fresh code is drawn.
      Either way the code is never empty. */
  function ResolveCode(supplied: Option<string>, taken: set<string>, draws: Draws, tries: nat): (r: Option<string>)
    ensures r.Some? ==> r.value != ""
    ensures supplied.Some? && supplied.value != "" ==> r == supplied
    ensures (supplied.None? || supplied.value == "") && r.Some? ==>
      r.value !in taken && |r.value| == DefaultCodeLength && AllAsciiAlnum(r.value)
    // ... and it is the generator's answer: the first draw that is free
    ensures (supplied.None? || supplied.value == "") && r.Some? ==>
      exists a :: 0 <= a < tries && r.value == Candidate(draws, a, DefaultCodeLength)
                  && FirstFreeAttempt(taken, DefaultCodeLength, draws, 0, a)
    // a code is found unless no code or an empty one was supplied and every draw collides
    ensures r.None? <==>
      ((supplied.None? || supplied.value == "") &&
       forall a :: 0 <= a < tries ==> Candidate(draws, a, DefaultCodeLength) in taken)
  {
    if supplied.Some? && supplied.value != "" then supplied
    else GenerateShortcode(taken, DefaultCodeLength, draws, tries)
  }

  /** The create handler. `now` is the clock reading the expiry is computed
      from, `createdAt` the separate reading stored as the creation time. */
  function Shorten(reg: Registry, req: ShortenRequest, draws: Draws, tries: nat, now: Time, createdAt: Time): (o: Outcome)
    // every failure leaves both stores as they were
    ensures !o.response.Created? ==> o.registry == reg
    // no answer while the generator finds no free code
    ensures o.response.Drawing? <==> ResolveCode(req.shortcode, reg.urls.Keys, draws, tries).None?
    // a code that is already registered: 400
    ensures o.response == Error(BadRequest) <==>
      (var c := ResolveCode(req.shortcode, reg.urls.Keys, draws, tries); c.Some? && c.value in reg.urls)
    // a free code but a validity that is not a number: 500
    ensures o.response == Error(InternalError) <==>
      (var c := ResolveCode(req.shortcode, reg.urls.Keys, draws, tries);
       c.Some? && c.value !in reg.urls && req.validity.None?)
    // a free code and any integer validity, zero and negative included: 201
    ensures o.response.Created? <==>
      (var c := ResolveCode(req.shortcode, reg.urls.Keys, draws, tries);
       c.Some? && c.value !in reg.urls && req.validity.Some?)
    // success inserts exactly one new key in each store and touches nothing else
    ensures o.response.Created? ==>
      && req.validity.Some?
      && o.response.shortLink == BaseUrl + LinkCode(o.response.shortLink)
      && var code := LinkCode(o.response.shortLink);
      && ResolveCode(req.shortcode, reg.urls.Keys, draws, tries) == Some(code)
      && code != ""
      && code !in reg.urls
      && o.response.expiry == now + req.validity.value * MicrosPerMinute
      && o.registry.urls.Keys == reg.urls.Keys + {code}
      && o.registry.clicks.Keys == reg.clicks.Keys + {code}
      && o.registry.urls[code] == UrlRecord(req.url, createdAt, o.response.expiry)
      && o.registry.clicks[code] == []
      && (forall k :: k in reg.urls ==> o.registry.urls[k] == reg.urls[k])
      && (forall k :: k in reg.clicks && k != code ==> o.registry.clicks[k] == reg.clicks[k])
  {
    match ResolveCode(req.shortcode, reg.urls.Keys, draws, tries)
    case None => Outcome(reg, Drawing)
    case Some(code) =>
      if code in reg.urls then Outcome(reg, Error(BadRequest))
      else if req.validity.None? then Outcome(reg, Error(InternalError))
      else
        var expiry := now + req.validity.value * MicrosPerMinute;
        var urls := reg.urls[code := UrlRecord(req.url, createdAt, expiry)];
        var clicks := reg.clicks[code := []];
        assert LinkCode(BaseUrl + code) == code;
        Outcome(Registry(urls, clicks), Created(BaseUrl + code, expiry))
  }

  /** Asking for a code that is already registered is refused with 400 and
      changes nothing, whatever the validity and the clock. (A supplied empty
      string is never looked up: it makes the handler draw a code instead.) */
  lemma ShortenTakenCodeRejected(reg: Registry, req: ShortenRequest, draws: Draws, tries: nat, now: Time, createdAt: Time)
    requires req.shortcode.Some? && req.shortcode.value != "" && req.shortcode.value in reg.urls
    ensures Shorten(reg, req, draws, tries, now, createdAt) == Outcome(reg, Error(BadRequest))
  {
  }

  lemma ShortenPreservesValid(reg: Registry, req: ShortenRequest, draws: Draws, tries: nat, now: Time, createdAt: Time)
    requires Valid(reg)
    ensures Valid(Shorten(reg, req, draws, tries, now, createdAt).registry)
  {
  }

  // ------------------------------------------------------------------
  // get_url_stats
  // ------------------------------------------------------------------

  /** The stats handler: the record and its clicks, expired or not. It
      takes no clock reading and returns no new state. */
  function Stats(reg: Registry, code: string): (r: Response)
    ensures r == Error(NotFound) <==> code !in reg.urls
    ensures code in reg.urls ==>
      && r.Report?
      && r.originalUrl == reg.urls[code].originalUrl
      && r.createdAt == reg.urls[code].createdAt
      && r.expiry == reg.urls[code].expiry
      && r.totalClicks == |r.clicks|
      && r.clicks == (if code in reg.clicks then reg.clicks[code] else [])
  {
    if code !in reg.urls then Error(NotFound)
    else
      var info := reg.urls[code];
      var clickData := if code in reg.clicks then reg.clicks[code] else [];
      Report(info.originalUrl, info.createdAt, info.expiry, |clickData|, clickData)
  }

  /** In a valid registry the click count is the length of the code's own
      click list. */
  lemma StatsCountsClicks(reg: Registry, code: string)
    requires Valid(reg) && code in reg.urls
    ensures Stats(reg, code).totalClicks == |reg.clicks[code]|
    ensures Stats(reg, code).clicks == reg.clicks[code]
  {
  }

  // ------------------------------------------------------------------
  // redirect_to_original
  // ------------------------------------------------------------------

  /** The redirect handler. `now` is the reading compared with the expiry,
      `stampedAt` the later reading stored in the click. */
  function Redirect(reg: Registry, code: string, referrer: Option<string>, host: string, now: Time, stampedAt: Time): (o: Outcome)
    // every failure leaves both stores as they were
    ensures !o.response.RedirectTo? ==> o.registry == reg
    ensures o.response == Error(NotFound) <==> code !in reg.urls
    // expiry is strict: the expiry instant itself still redirects
    ensures o.response == Error(Gone) <==> code in reg.urls && now > reg.urls[code].expiry
    ensures o.response.RedirectTo? <==> code in reg.urls && now <= reg.urls[code].expiry && code in reg.clicks
    // a live code without a click list: `clicks_db[shortcode]` raises, 500
    ensures o.response == Error(InternalError) <==>
      code in reg.urls && now <= reg.urls[code].expiry && code !in reg.clicks
    // success appends exactly one click to this code's list and nothing else
    ensures o.response.RedirectTo? ==>
      && o.response.location == reg.urls[code].originalUrl
      && o.registry.urls == reg.urls
      && o.registry.clicks.Keys == reg.clicks.Keys
      && o.registry.clicks[code] == reg.clicks[code] + [Click(stampedAt, referrer, host)]
      && (forall k :: k in reg.clicks && k != code ==> o.registry.clicks[k] == reg.clicks[k])
  {
    if code !in reg.urls then Outcome(reg, Error(NotFound))
    else
      var info := reg.urls[code];
      if now > info.expiry then Outcome(reg, Error(Gone))
      else if code !in reg.clicks then
        // `clicks_db[shortcode]` raises before anything is appended
        Outcome(reg, Error(InternalError))
      else
        var clicks := reg.clicks[code := reg.clicks[code] + [Click(stampedAt, referrer, host)]];
        Outcome(Registry(reg.urls, clicks), RedirectTo(info.originalUrl))
  }

  /** In a valid registry the redirect handler never fails internally: a
      registered code either redirects or is gone. */
  lemma RedirectNeverFailsWhenValid(reg: Registry, code: string, referrer: Option<string>, host: string, now: Time, stampedAt: Time)
    requires Valid(reg) && code in reg.urls
    ensures Redirect(reg, code, referrer, host, now, stampedAt).response.RedirectTo?
            || Redirect(reg, code, referrer, host, now, stampedAt).response == Error(Gone)
  {
  }

  lemma RedirectPreservesValid(reg: Registry, code: string, referrer: Option<string>, host: string, now: Time, stampedAt: Time)
    requires Valid(reg)
    ensures Valid(Redirect(reg, code, referrer, host, now, stampedAt).registry)
  {
  }

  // ------------------------------------------------------------------
  // The HTTP status each handler answers with
  // ------------------------------------------------------------------

  /** Each handler's answers carry the source's own status numbers: create
      answers 201, 400 for a registered code and 500 for a validity that is
      not a number; stats answers 200 and 404; redirect answers 307, 404,
      410, and 500 for a live code without a click list. */
  lemma HandlerStatuses(reg: Registry, req: ShortenRequest, draws: Draws, tries: nat, now: Time, createdAt: Time,
                        code: string, referrer: Option<string>, host: string, stampedAt: Time)
    ensures var c := ResolveCode(req.shortcode, reg.urls.Keys, draws, tries);
            var r := Shorten(reg, req, draws, tries, now, createdAt).response;
            && (c.Some? && c.value in reg.urls ==> StatusCode(r) == 400)
            && (c.Some? && c.value !in reg.urls && req.validity.None? ==> StatusCode(r) == 500)
            && (c.Some? && c.value !in reg.urls && req.validity.Some? ==> StatusCode(r) == 201)
    ensures code !in reg.urls ==> StatusCode(Stats(reg, code)) == 404
    ensures code in reg.urls ==> StatusCode(Stats(reg, code)) == 200
    ensures var r := Redirect(reg, code, referrer, host, now, stampedAt).response;
            && (code !in reg.urls ==> StatusCode(r) == 404)
            && (code in reg.urls && now > reg.urls[code].expiry ==> StatusCode(r) == 410)
            && (code in reg.urls && now <= reg.urls[code].expiry && code !in reg.clicks ==> StatusCode(r) == 500)
            && (code in reg.urls && now <= reg.urls[code].expiry && code in reg.clicks ==> StatusCode(r) == 307)
  {
  }

  // ------------------------------------------------------------------
  // Validity: the default, zero and negative values
  // ------------------------------------------------------------------

  /** A create request that leaves the validity out gets thirty minutes:
      once the code is free, the link is created and expires 30·60 s after
      the clock reading the expiry is computed from. */
  lemma OmittedValidityLastsThirtyMinutes(reg: Registry, url: string, shortcode: Option<string>, draws: Draws, tries: nat,
                                          now: Time, createdAt: Time)
    requires ResolveCode(shortcode, reg.urls.Keys, draws, tries).Some?
    requires ResolveCode(shortcode, reg.urls.Keys, draws, tries).value !in reg.urls
    ensures var o := Shorten(reg, ShortenRequest(url, Some(DefaultValidity), shortcode), draws, tries, now, createdAt);
            o.response.Created? && o.response.expiry == now + 1800 * 1000 * 1000
  {
  }

  /** The handler accepts a negative validity: once the code is free the
      record is created and stored, but no redirect at or after the clock
      reading the expiry was computed from ever succeeds. */
  lemma NegativeValidityIsBornExpired(reg: Registry, req: ShortenRequest, draws: Draws, tries: nat, now: Time, createdAt: Time,
                                      referrer: Option<string>, host: string, later: Time, stampedAt: Time)
    requires req.validity.Some? && req.validity.value < 0
    requires ResolveCode(req.shortcode, reg.urls.Keys, draws, tries).Some?
    requires ResolveCode(req.shortcode, reg.urls.Keys, draws, tries).value !in reg.urls
    requires now <= later
    ensures var o := Shorten(reg, req, draws, tries, now, createdAt);
            var code := LinkCode(o.response.shortLink);
            && o.response.Created?
            && code in o.registry.urls
            && Redirect(o.registry, code, referrer, host, later, stampedAt).response == Error(Gone)
  {
  }

  /** The handler accepts a validity of zero: once the code is free the
      record is created, and it expires at the clock reading the expiry was
      computed from. A redirect at that very instant still succeeds; one a
      microsecond later is gone. */
  lemma ZeroValidityExpiresAtCreation(reg: Registry, req: ShortenRequest, draws: Draws, tries: nat, now: Time, createdAt: Time,
                                      referrer: Option<string>, host: string, stampedAt: Time)
    requires req.validity == Some(0)
    requires ResolveCode(req.shortcode, reg.urls.Keys, draws, tries).Some?
    requires ResolveCode(req.shortcode, reg.urls.Keys, draws, tries).value !in reg.urls
    ensures var o := Shorten(reg, req, draws, tries, now, createdAt);
            var code := LinkCode(o.response.shortLink);
            && o.response.Created?
            && Redirect(o.registry, code, referrer, host, now, stampedAt).response == RedirectTo(req.url)
            && Redirect(o.registry, code, referrer, host, now + 1, stampedAt).response == Error(Gone)
  {
  }
}

=== FILE: traces.dfy ===
/** Sequences of requests served one after another by the same process:
    what the registry promises across calls. Each request carries the clock
    readings and random draws its handler takes. */
module Traces {
  import opened Wrappers
  import opened Shortcode
  import opened Shortener

  datatype Request =
    | ShortenCall(body: ShortenRequest, draws: Draws, tries: nat, now: Time, createdAt: Time)
    | StatsCall(code: string)
    | VisitCall(code: string, referrer: Option<string>, host: string, now: Time, stampedAt: Time)

  /** The registry after a run, and every answer in request order. */
  datatype Transcript = Transcript(final: Registry, responses: seq<Response>)

  /** One request, dispatched to its handler. The stats handler never
      changes the registry, no handler changes or drops a record, and a
      created link names a code that was not registered before and is
      afterwards. */
  function Step(reg: Registry, req: Request): (o: Outcome)
    ensures req.StatsCall? ==> o.registry == reg
    ensures KeepsRecords(reg, o.registry)
    ensures o.response.Created? ==>
      LinkCode(o.response.shortLink) !in reg.urls && LinkCode(o.response.shortLink) in o.registry.urls
  {
    match req
    case ShortenCall(body, draws, tries, now, createdAt) => Shorten(reg, body, draws, tries, now, createdAt)
    case StatsCall(code) => Outcome(reg, Stats(reg, code))
    case VisitCall(code, referrer, host, now, stampedAt) => Redirect(reg, code, referrer, host, now, stampedAt)
  }

  /** The requests served in order, from `reg`. */
  function Run(reg: Registry, reqs: seq<Request>): (t: Transcript)
    decreases |reqs|
    ensures |t.responses| == |reqs|
  {
    if reqs == [] then Transcript(reg, [])
    else
      var o := Step(reg, reqs[0]);
      var rest := Run(o.registry, reqs[1..]);
      Transcript(rest.final, [o.response] + rest.responses)
  }

  // ------------------------------------------------------------------
  // The two stores keep the same keys
  // ------------------------------------------------------------------

  lemma StepPreservesValid(reg: Registry, req: Request)
    requires Valid(reg)
    ensures Valid(Step(reg, req).registry)
  {
    match req
    case ShortenCall(body, draws, tries, now, createdAt) =>
      ShortenPreservesValid(reg, body, draws, tries, now, createdAt);
    case StatsCall(_) =>
    case VisitCall(code, referrer, host, now, stampedAt) =>
      RedirectPreservesValid(reg, code, referrer, host, now, stampedAt);
  }

  /** Whatever is served, `urls_db` and `clicks_db` keep the same key set and
      the empty string never becomes a key. */
  lemma {:induction false} RunPreservesValid(reg: Registry, reqs: seq<Request>)
    decreases |reqs|
    requires Valid(reg)
    ensures Valid(Run(reg, reqs).final)
  {
    if reqs != [] {
      StepPreservesValid(reg, reqs[0]);
      RunPreservesValid(Step(reg, reqs[0]).registry, reqs[1..]);
    }
  }

  // ------------------------------------------------------------------
  // Records are immutable, click lists only grow
  // ------------------------------------------------------------------

  /** `after` keeps every record of `before` unchanged. */
  predicate KeepsRecords(before: Registry, after: Registry) {
    forall k :: k in before.urls ==> k in after.urls && after.urls[k] == before.urls[k]
  }

  /** Every click list of `before` is a prefix of the same list in `after`. */
  predicate ExtendsClicks(before: Registry, after: Registry) {
    forall k :: k in before.clicks ==> k in after.clicks && before.clicks[k] <= after.clicks[k]
  }

  /** No request ever changes or removes a stored record. */
  lemma {:induction false} RunKeepsRecords(reg: Registry, reqs: seq<Request>)
    decreases |reqs|
    ensures KeepsRecords(reg, Run(reg, reqs).final)
  {
    if reqs != [] {
      var next := Step(reg, reqs[0]).registry;
      assert KeepsRecords(reg, next);
      RunKeepsRecords(next, reqs[1..]);
    }
  }

  /** Click lists are append-only: what a list held before a run is a
      prefix of what it holds after. */
  lemma {:induction false} RunExtendsClicks(reg: Registry, reqs: seq<Request>)
    decreases |reqs|
    requires Valid(reg)
    ensures ExtendsClicks(reg, Run(reg, reqs).final)
  {
    if reqs != [] {
      var next := Step(reg, reqs[0]).registry;
      StepPreservesValid(reg, reqs[0]);
      assert ExtendsClicks(reg, next);
      RunExtendsClicks(next, reqs[1..]);
      var final := Run(reg, reqs).final;
      forall k | k in reg.clicks
        ensures k in final.clicks && reg.clicks[k] <= final.clicks[k]
      {
        assert reg.clicks[k] <= next.clicks[k] <= final.clicks[k];
      }
    }
  }

  // ------------------------------------------------------------------
  // The click count is the number of successful redirects
  // ------------------------------------------------------------------

  /** How many clicks the registry holds for `code` (none when absent). */
  function ClickCount(reg: Registry, code: string): nat {
    if code in reg.clicks then |reg.clicks[code]| else 0
  }

  /** How many of the requests were redirects of `code` that succeeded. */
  function Redirects(reqs: seq<Request>, responses: seq<Response>, code: string): nat
    requires |reqs| == |responses|
  {
    if reqs == [] then 0
    else
      (if reqs[0].VisitCall? && reqs[0].code == code && responses[0].RedirectTo? then 1 else 0)
      + Redirects(reqs[1..], responses[1..], code)
  }

  /** Every successful redirect of a code adds exactly one click to it, and
      nothing else does. */
  lemma {:induction false} ClicksCountRedirects(reg: Registry, reqs: seq<Request>, code: string)
    decreases |reqs|
    requires Valid(reg)
    ensures var t := Run(reg, reqs);
            ClickCount(t.final, code) == ClickCount(reg, code) + Redirects(reqs, t.responses, code)
  {
    if reqs != [] {
      var o := Step(reg, reqs[0]);
      StepPreservesValid(reg, reqs[0]);
      ClicksCountRedirects(o.registry, reqs[1..], code);
      var t := Run(reg, reqs);
      assert t.responses[1..] == Run(o.registry, reqs[1..]).responses;
      assert t.responses[0] == o.response;
    }
  }

  /** Starting from the empty registry, the stats of a code report exactly
      as many clicks as there were successful redirects of it. */
  lemma StatsReportsRedirects(reqs: seq<Request>, code: string)
    requires code in Run(Empty, reqs).final.urls
    ensures var t := Run(Empty, reqs);
            Stats(t.final, code).totalClicks == Redirects(reqs, t.responses, code)
  {
    RunPreservesValid(Empty, reqs);
    ClicksCountRedirects(Empty, reqs, code);
  }

  // ------------------------------------------------------------------
  // Click lists are in chronological order
  // ------------------------------------------------------------------

  predicate Chronological(cs: seq<Click>) {
    forall i, j :: 0 <= i < j < |cs| ==> cs[i].timestamp <= cs[j].timestamp
  }

  /** Every click list is chronological and stamped no later than `t`. */
  predicate OrderedBy(reg: Registry, t: Time) {
    forall k :: k in reg.clicks ==>
      && Chronological(reg.clicks[k])
      && forall i :: 0 <= i < |reg.clicks[k]| ==> reg.clicks[k][i].timestamp <= t
  }

  /** The redirect requests stamp clicks with a clock that never goes back,
      starting no earlier than `t`. A redirect that fails (404, 410, 500)
      takes no stamp reading in the source, so its `stampedAt` is free: any
      value that keeps the order can stand for it, and the condition asks
      nothing of the source's clock on those paths. */
  predicate StampsFrom(t: Time, reqs: seq<Request>)
    decreases |reqs|
  {
    if reqs == [] then true
    else if reqs[0].VisitCall? then t <= reqs[0].stampedAt && StampsFrom(reqs[0].stampedAt, reqs[1..])
    else StampsFrom(t, reqs[1..])
  }

  /** The latest stamp the requests carry, or `t` when none does. */
  function LastStamp(t: Time, reqs: seq<Request>): Time
    decreases |reqs|
  {
    if reqs == [] then t
    else if reqs[0].VisitCall? then LastStamp(reqs[0].stampedAt, reqs[1..])
    else LastStamp(t, reqs[1..])
  }

  lemma StepKeepsOrder(reg: Registry, req: Request, t: Time)
    requires OrderedBy(reg, t)
    requires req.VisitCall? ==> t <= req.stampedAt
    ensures OrderedBy(Step(reg, req).registry, if req.VisitCall? then req.stampedAt else t)
  {
    var o := Step(reg, req);
    if req.VisitCall? && o.response.RedirectTo? {
      var s := req.stampedAt;
      forall k | k in o.registry.clicks
        ensures Chronological(o.registry.clicks[k])
        ensures forall i :: 0 <= i < |o.registry.clicks[k]| ==> o.registry.clicks[k][i].timestamp <= s
      {
        var cs := o.registry.clicks[k];
        if k == req.code {
          assert cs == reg.clicks[k] + [Click(s, req.referrer, req.host)];
        } else {
          assert cs == reg.clicks[k];
        }
      }
    }
  }

  /** With a clock that never goes back, every click list stays in
      chronological order. */
  lemma {:induction false} RunKeepsOrder(reg: Registry, reqs: seq<Request>, t: Time)
    decreases |reqs|
    requires OrderedBy(reg, t)
    requires StampsFrom(t, reqs)
    ensures OrderedBy(Run(reg, reqs).final, LastStamp(t, reqs))
  {
    if reqs != [] {
      var t' := if reqs[0].VisitCall? then reqs[0].stampedAt else t;
      StepKeepsOrder(reg, reqs[0], t);
      RunKeepsOrder(Step(reg, reqs[0]).registry, reqs[1..], t');
    }
  }

  // ------------------------------------------------------------------
  // Every created link names a different code
  // ------------------------------------------------------------------

  /** Every link created in `responses` names a code that `before` did not
      hold and `after` does. */
  predicate CreatesNewCodes(before: Registry, after: Registry, responses: seq<Response>) {
    forall i :: 0 <= i < |responses| && responses[i].Created? ==>
      LinkCode(responses[i].shortLink) !in before.urls && LinkCode(responses[i].shortLink) in after.urls
  }

  /** No two links created in `responses` name the same code. */
  predicate DistinctCreatedCodes(responses: seq<Response>) {
    forall i, j :: 0 <= i < j < |responses| && responses[i].Created? && responses[j].Created? ==>
      LinkCode(responses[i].shortLink) != LinkCode(responses[j].shortLink)
  }

  /** Each successful create of a run inserted a code that was new to the
      registry the run started from and is still stored at the end, and no
      two successful creates hand out the same code. */
  lemma {:induction false} CreatedCodesAreDistinct(reg: Registry, reqs: seq<Request>)
    decreases |reqs|
    ensures CreatesNewCodes(reg, Run(reg, reqs).final, Run(reg, reqs).responses)
    ensures DistinctCreatedCodes(Run(reg, reqs).responses)
  {
    if reqs != [] {
      var o := Step(reg, reqs[0]);
      var rest := Run(o.registry, reqs[1..]);
      var t := Run(reg, reqs);
      CreatedCodesAreDistinct(o.registry, reqs[1..]);
      RunKeepsRecords(o.registry, reqs[1..]);
      assert t.responses == [o.response] + rest.responses;
      assert t.final == rest.final;
      forall i | 0 <= i < |t.responses| && t.responses[i].Created?
        ensures LinkCode(t.responses[i].shortLink) !in reg.urls
        ensures LinkCode(t.responses[i].shortLink) in t.final.urls
      {
        if i == 0 {
          assert t.responses[0] == o.response;
        } else {
          assert t.responses[i] == rest.responses[i - 1];
        }
      }
      forall i, j | 0 <= i < j < |t.responses| && t.responses[i].Created? && t.responses[j].Created?
        ensures LinkCode(t.responses[i].shortLink) != LinkCode(t.responses[j].shortLink)
      {
        assert t.responses[j] == rest.responses[j - 1];
        if i == 0 {
          assert t.responses[0] == o.response;
        } else {
          assert t.responses[i] == rest.responses[i - 1];
        }
      }
    }
  }

  // ------------------------------------------------------------------
  // A one-minute link
  // ------------------------------------------------------------------

  /** The create step of the one-minute scenario, on the empty stores. */
  lemma OneMinuteCreate(url: string, draws: Draws, t0: Time)
    ensures var code := Candidate(draws, 0, DefaultCodeLength);
            var o := Shorten(Empty, ShortenRequest(url, Some(1), None), draws, 1, t0, t0);
            && o.response == Created(BaseUrl + code, t0 + MicrosPerMinute)
            && o.registry.urls == map[code := UrlRecord(url, t0, t0 + MicrosPerMinute)]
            && o.registry.clicks == map[code := []]
  {
    var code := Candidate(draws, 0, DefaultCodeLength);
    assert GenerateShortcode({}, DefaultCodeLength, draws, 1) == Some(code);
    assert ResolveCode(None, Empty.urls.Keys, draws, 1) == Some(code);
  }

  /** The two visits and the stats call of the one-minute scenario, on the
      stores the create step leaves. */
  lemma OneMinuteVisits(url: string, code: string, referrer: Option<string>, host: string, t0: Time)
    ensures var reg := Registry(map[code := UrlRecord(url, t0, t0 + MicrosPerMinute)], map[code := []]);
            var late := t0 + MicrosPerMinute + 1;
            var o2 := Redirect(reg, code, referrer, host, t0, t0);
            var o3 := Redirect(o2.registry, code, referrer, host, late, late);
            && o2.response == RedirectTo(url)
            && o3.response == Error(Gone)
            && Stats(o3.registry, code).Report?
            && Stats(o3.registry, code).totalClicks == 1
  {
  }

  /** Four requests served in order answer with their four steps' answers. */
  lemma RunOfFour(reg: Registry, r1: Request, r2: Request, r3: Request, r4: Request)
    ensures var o1 := Step(reg, r1);
            var o2 := Step(o1.registry, r2);
            var o3 := Step(o2.registry, r3);
            var o4 := Step(o3.registry, r4);
            Run(reg, [r1, r2, r3, r4]).responses == [o1.response, o2.response, o3.response, o4.response]
  {
    var reqs := [r1, r2, r3, r4];
    var o1 := Step(reg, r1);
    var o2 := Step(o1.registry, r2);
    var o3 := Step(o2.registry, r3);
    var o4 := Step(o3.registry, r4);
    assert reqs[1..] == [r2, r3, r4];
    assert reqs[1..][1..] == [r3, r4];
    assert reqs[1..][1..][1..] == [r4];
    assert Run(o3.registry, [r4]).responses == [o4.response];
    assert Run(o2.registry, [r3, r4]).responses == [o3.response, o4.response];
    assert Run(o1.registry, [r2, r3, r4]).responses == [o2.response, o3.response, o4.response];
  }

  /** Create a link valid for one minute, follow it at once, follow it again
      a microsecond after the minute is over, then ask for its stats: it is
      created with the right expiry, redirects, is then gone, and reports
      one click. */
  lemma OneMinuteLink(url: string, draws: Draws, t0: Time, referrer: Option<string>, host: string)
    ensures var code := Candidate(draws, 0, DefaultCodeLength);
            var late := t0 + MicrosPerMinute + 1;
            var reqs := [ ShortenCall(ShortenRequest(url, Some(1), None), draws, 1, t0, t0)
                        , VisitCall(code, referrer, host, t0, t0)
                        , VisitCall(code, referrer, host, late, late)
                        , StatsCall(code) ];
            var t := Run(Empty, reqs);
            && t.responses[0] == Created(BaseUrl + code, t0 + MicrosPerMinute)
            && t.responses[1] == RedirectTo(url)
            && t.responses[2] == Error(Gone)
            && t.responses[3].Report?
            && t.responses[3].totalClicks == 1
            && StatusCode(t.responses[0]) == 201
            && StatusCode(t.responses[1]) == 307
            && StatusCode(t.responses[2]) == 410
            && StatusCode(t.responses[3]) == 200
  {
    var code := Candidate(draws, 0, DefaultCodeLength);
    var late := t0 + MicrosPerMinute + 1;
    var r1 := ShortenCall(ShortenRequest(url, Some(1), None), draws, 1, t0, t0);
    var r2 := VisitCall(code, referrer, host, t0, t0);
    var r3 := VisitCall(code, referrer, host, late, late);
    var r4 := StatsCall(code);

    var o1 := Step(Empty, r1);
    OneMinuteCreate(url, draws, t0);
    assert o1.registry == Registry(map[code := UrlRecord(url, t0, t0 + MicrosPerMinute)], map[code := []]);
    OneMinuteVisits(url, code, referrer, host, t0);
    var o2 := Step(o1.registry, r2);
    var o3 := Step(o2.registry, r3);
    var o4 := Step(o3.registry, r4);

    RunOfFour(Empty, r1, r2, r3, r4);
  }
}

=== FILE: wrappers.dfy ===
/** The optional-value datatype used throughout the model: Python's `None`
    versus a present value, for optional request fields and headers. */
module Wrappers {

  datatype Option<+T> = None | Some(value: T)
}
